=== FILE: README.md ===
# gopowerschool SOAP transport, in Dafny

A model of the request/response core of the gopowerschool client, a Go
client for the PowerSchool public-portal SOAP service:

- **Body decoder** (`Envelope`): the custom `UnmarshalXML` of the SOAP Body
  record. It runs over an abstract token stream. A start token stands for a
  whole child element and records what the library decoder would make of it,
  as a SOAP 1.1 Fault (section 4.4 of the W3C SOAP 1.1 Note) or as the
  caller's payload. The first element picks the Fault or the Content slot,
  and a second element is rejected (the WS-I "one child of soap:Body" rule).
- **Digest helpers** (`Digest`): `digestParts` reads the `WWW-Authenticate`
  challenge (section 3.2.1 of RFC 2617). `getDigestAuth` builds the
  `Authorization` header (section 3.2.2 of RFC 2617, qop "auth"). MD5 is a
  function parameter, and the client nonce is an argument.
- **Call** (`Transport`): `SOAPClient.Call` as a pure function of what each
  step produced: encoding, the probe, the authenticated request, reading the
  reply, and decoding it. It returns the call's error or response and the
  requests sent.
- **Portal helpers** (`PowerSchool`): `Client` (URL normalisation),
  `CreateUserSessionAndStudent` and `GetStudent`. The two remote operations
  they call are function parameters.

`Base` holds Option/Result and the Go integer widths. `Text` holds the Go
`strings` operations used, with `SplitOn`/`Join` proved inverse. `Errors`
holds the Fault record and the error values.

Two behaviours of the code are worth knowing when reading the model:

- A Fault does not win over other Body content. A second element after a
  Fault in the same Body is rejected with the multiple-elements error, and
  the Fault is not reported (`Transport.FaultThenElementRejected`). A second
  Body element after a Fault fails with the missing-content error, because
  the Fault branch cleared the Content slot (`Transport.SecondBodyAfterFault`).
- The nonce count is written `1`. The code formats the Go integer literal
  `00000001` with `%v`, so both the hashed text and the header carry `1`,
  where section 3.2.2 of RFC 2617 asks for the eight hex digits `00000001`.
  `Digest.NonceCount` is `"1"`.

## Model

| member | source | states |
|---|---|---|
| `Text.SplitOn` | xml_parser.go:1249 | `strings.Split` on one character: at least one piece, no piece holds the separator, and joining the pieces with it gives the input back |
| `Text.SplitJoin` | xml_parser.go:1249 | splitting a join of separator-free pieces gives the pieces back (the inverse direction) |
| `Text.ContainsAt` | xml_parser.go:1252 | `strings.Contains` holds exactly when the key occurs at some position |
| `Errors.Message` | xml_parser.go:1149-1151 | the error text of a SOAP Fault is its `faultstring` alone; code, actor and detail are not part of it |
| `Envelope.DecodeBody` | xml_parser.go:1099-1147 | with no Content slot it fails with "Content must be a pointer to a struct" whatever the tokens; a successful decode of a Body that did not start with both slots set never ends with both set, and always ends with one of them set |
| `Envelope.Scan` | xml_parser.go:1110-1144 | once an element is consumed the slots do not change; starting from an empty Fault it never ends with both slots set; if either slot was set, one of the two is still set (the Fault branch may swap Content for Fault) |
| `Envelope.ScanSkipsOther` | xml_parser.go:1120-1143 | character data and other non-element tokens make no difference, wherever they occur |
| `Envelope.DecodeBodyIsLookahead` | xml_parser.go:1099-1147 | the decoder equals a one-token lookahead definition: the first significant token ends, fails or picks the branch, and after one child the next must be the end tag |
| `Envelope.EmptyBodyUnchanged` | xml_parser.go:1141-1146 | a Body whose first significant token is its end tag succeeds with Fault nil and Content unchanged |
| `Envelope.FaultBranch` | xml_parser.go:1124-1133 | a first child `Fault` in the SOAP envelope namespace fills the Fault slot and sets Content to nil |
| `Envelope.PayloadBranch` | xml_parser.go:1134-1140 | any other first child is decoded into the caller's Content slot, and Fault is untouched |
| `Envelope.ChildErrorPropagates` | xml_parser.go:1124-1137 | an error decoding the first child is returned unchanged, in either branch |
| `Envelope.SecondElementRejected` | xml_parser.go:1121-1123 | after one consumed element, Fault or payload, a further start element gives the "Found multiple elements inside SOAP body" error |
| `Envelope.ReadErrorPropagates` | xml_parser.go:1112-1114 | a tokenizer error is returned unchanged |
| `Digest.QuotedValue` | xml_parser.go:1253 | the value taken from a piece never contains a quote |
| `Digest.QuotedValueOf` | xml_parser.go:1253 | the value is the text between the first and second `"`, or after the first when there is only one |
| `Digest.DigestParts` | xml_parser.go:1245-1259 | with no `Www-Authenticate` header the map is empty; it only ever holds nonce, realm and qop, each quote-free |
| `Digest.DigestPartsLastWins` | xml_parser.go:1250-1256 | a key is present exactly when some comma-piece of the first header value contains it; its value is the quoted value of the last such piece |
| `Digest.KeyedPiece` | xml_parser.go:1250-1255 | a piece `<pre><key>="<v>"` that holds no first letter of another wanted key sets exactly `key`, to `v`, and leaves every other entry alone |
| `Digest.OrdinaryChallenge` | xml_parser.go:1245-1259 | `Digest realm="<r>", qop="<q>", nonce="<n>"` yields exactly realm r, qop q and nonce n, for every r, q, n without quotes, commas or another key's first letter |
| `Digest.RealmMentioningNonce` | xml_parser.go:1245-1259 | in `Digest nonce="<n>", realm="<r>"`, any realm value r that contains "nonce" also becomes the nonce, replacing n, because one piece sets every key it mentions and later pieces overwrite |
| `Digest.RenderParse` | xml_parser.go:1280-1281 | the `key="value", …` layout of the header can be read back into the same pairs when values hold no quote |
| `Digest.GetDigestAuth` | xml_parser.go:1273-1283 | read back, the header carries username, realm, nonce, uri, cnonce, nc=1, qop, and response = MD5(MD5(username:realm:password):nonce:1:cnonce:qop:MD5(method:uri)), in that order; a key missing from the map contributes "" |
| `Transport.DigestMap` | xml_parser.go:1197-1201 | the digest map always has uri "", method POST and the client's login and password; the challenge fields are kept |
| `Transport.SoapHeaders` | xml_parser.go:1208-1213 | `SOAPAction` is present exactly when the action is non-empty; Content-Type is text/xml with charset utf-8; it carries the Authorization and User-Agent |
| `Transport.DecodeBodies` | xml_parser.go:1231-1236 | decoding Body elements in turn keeps the slots exclusive, and keeps one of them set |
| `Transport.DecodeReply` | xml_parser.go:1231-1243 | an envelope-level decode error is returned unchanged, and so is the first error of the Body decoder over the Body elements in turn; once every Body element decodes, a Fault left in the slots is the error, and otherwise the call returns the decoded Content; an envelope without a Body returns the response unchanged |
| `Transport.Call` | xml_parser.go:1161-1244 | encode, flush and URL failures return before any request; a probe failure returns after the probe alone, which is a POST to the endpoint with no body, Content-Type application/json, no close flag and the client's TLS setting; the authenticated request goes out exactly when encoding, flushing, the URL and the probe all succeed, and it is a POST to the endpoint carrying the envelope, the `SoapHeaders` built from the action and the Digest header computed from the probe's challenge, the close flag, and the client's TLS setting; send and read errors are returned unchanged; success needs both exchanges; an empty reply is success with the response untouched; a reply is decoded as `DecodeReply` states |
| `Transport.CallReturnsFault` | xml_parser.go:1238-1241 | a reply whose Body holds only a Fault fails with that Fault, and the error text is exactly its `faultstring` |
| `Transport.CallReturnsBodyError` | xml_parser.go:1231-1236 | a reply whose Body fails to decode makes the call fail with the Body decoder's error, unchanged |
| `Transport.CallReturnsPayload` | xml_parser.go:1231-1243 | a reply whose Body holds one payload element returns that payload |
| `Transport.PayloadThenFaultBody` | xml_parser.go:1231-1241 | a payload Body element followed by a Body element holding only a Fault makes the reply fail with that Fault |
| `Transport.PayloadThenPayloadBody` | xml_parser.go:1231-1243 | two payload Body elements decode into the same response in turn, and the call returns what the second one wrote |
| `Transport.FaultThenElementRejected` | xml_parser.go:1121-1133 | a Fault followed by another element in the same Body is reported as the multiple-elements error, not as the Fault |
| `Transport.SecondBodyAfterFault` | xml_parser.go:1099-1133 | a second Body element after a Fault finds Content nil and fails with the missing-content error |
| `Transport.CallAuthorization` | xml_parser.go:1197-1212 | the sent Authorization header names the login and carries the challenge's realm, nonce and qop, uri "", nc 1, and the response digest over POST and "" |
| `Transport.CallWithoutChallenge` | xml_parser.go:1245-1247 | a probe without a challenge still yields an authenticated request, with realm, nonce and qop all "" |
| `PowerSchool.Normalize` | gopowerschool.go:9-11 | the URL gets a `/` appended exactly when it does not already end in `/`, so it always ends in exactly one added or original `/` |
| `PowerSchool.NormalizeIdempotent` | gopowerschool.go:9-11 | normalising twice is normalising once |
| `PowerSchool.Client` | gopowerschool.go:7-14 | the service URL is the normalised URL followed by `/pearson-rest/services/PublicPortalServiceJSON?wsdl`; credentials pearson/m0bApP5; certificate checks skipped |
| `PowerSchool.ServiceUrlDoubleSlash` | gopowerschool.go:12 | the service URL always contains `//pearson-rest` |
| `PowerSchool.TrimSessionProperties` | gopowerschool.go:25-30 | the new session keeps user id, ticket, server time and user type, and only the API version of the server info; trimming is idempotent |
| `PowerSchool.CreateUserSessionAndStudent` | gopowerschool.go:15-32 | a login error is returned unchanged; server messages give `error: <title> - <description>` of the first one; a login with no messages always yields a session; an error always comes with no session and id 0; on success the session is trimmed and the id is the first student id |
| `PowerSchool.GetStudent` | gopowerschool.go:33-44 | stated against the login outcome: a login error is returned unchanged, server messages give the formatted error of the first one, and otherwise the result is the first record of the data call made with the trimmed session, the first student id alone and include list `[1]` |
| `PowerSchool.GetStudentAfterLogin` | gopowerschool.go:15-44 | end to end: a login response with a session and no messages, whatever else it carries, leads to the data call with the trimmed session, `[id]` and include list `[1]` |

## Left out

- XML encoding and tokenising: the text `encoding/xml` writes and the tokens it reads are library behaviour. Encoding is an abstract result. The reply is the token stream of each Body element, or an envelope-level error. So the round trip from encoding to decoding is not stated.
- The `token == nil` break (xml_parser.go:1116-1118): the tokenizer never returns a nil token without an error. A stream that simply stops is modelled as the tokenizer's "unexpected EOF" error.
- HTTP and TLS: the transport, the 30-second dial timeout, `client.Do`, and closing bodies are I/O. They appear as step outcomes. In the model, the server's answers do not depend on the request sent.
- The second `http.NewRequest` (xml_parser.go:1203-1206) parses the same URL as the first, so it cannot fail once the first has passed. It has no separate outcome.
- Header-name canonicalisation by `net/http` (`SOAPAction` goes on the wire as `Soapaction`) is not modelled. Header names are kept as the code writes them.
- MD5 internals and `getCnonce`'s random bytes are a foreign hash and randomness. MD5 is a parameter (assumed hexadecimal where quotes matter), and the cnonce is an argument.
- `log.Println`, the per-operation facade methods, and the no-op `if url == ""` in the port-type constructor are left out.
- The generated record types are left out, apart from the fields the portal helpers read. `time.Time` is an opaque instant, and a student record is an opaque field map.
- Panics become preconditions: the index `url[len(url)-1]` in `Client` on an empty URL (`|url| > 0` on `PowerSchool.Client` and `PowerSchool.Normalize`), nil dereferences and index-out-of-range in `CreateUserSessionAndStudent` (`LoginUsable`), and the `panic` on a data-call error in `GetStudent` (`DataUsable`). So does a challenge piece that names a key but has no `"` (`Parsable`).
- Transport.Call: on failure the model returns only the error. Whatever the library decoder had already written into the caller's response is not modelled, because every caller discards the response on error.
- Digest.GetDigestAuth: the read-back is stated only when the hash is hexadecimal and the client nonce and the quoted fields hold no `"`. A quote inside a value makes the header text ambiguous, and the code does not escape it.

=== FILE: base.dfy ===
/** Small shared vocabulary: optional values, results, and the fixed-width
    integer types of the Go records. */
module Base {

  /** A Go pointer, slice header or interface that may be nil. */
  datatype Option<+T> = None | Some(value: T)

  /** A Go `(value, error)` pair in which exactly one side is meaningful. */
  datatype Result<+T, +E> = Success(value: T) | Failure(error: E)

  /** Go `int32`. */
  type Int32 = x: int | -0x8000_0000 <= x < 0x8000_0000

  /** Go `int64`. */
  type Int64 = x: int | -0x8000_0000_0000_0000 <= x < 0x8000_0000_0000_0000

  /** Go's `int64(x)` for an `int32` operand: a widening conversion that never
      changes the value. */
  function Widen(x: Int32): Int64
  {
    x as int
  }
}

=== FILE: digest.dfy ===
/** HTTP Digest authentication as the client does it (RFC 2617, qop "auth"):
    reading the server's `WWW-Authenticate` challenge and assembling the
    `Authorization` request header. */
module Digest {

  import opened Base
  import opened Text

  /** Response headers, keyed by canonical header name, each with its list of
      values in arrival order. */
  type Header = map<string, seq<string>>

  /** The canonical form of `WWW-Authenticate`, under which the HTTP library
      files the challenge. */
  const WwwAuthenticate := "Www-Authenticate"

  /** The challenge fields the client looks for. */
  const WantedKeys: set<string> := {"nonce", "realm", "qop"}

  /** The comma-separated pieces of the first challenge value, or none when
      the response carries no challenge. */
  function ChallengePieces(h: Header): seq<string>
  {
    if WwwAuthenticate in h && |h[WwwAuthenticate]| > 0 then SplitOn(h[WwwAuthenticate][0], ',')
    else []
  }

  /** The piece mentions at least one wanted key, as a substring anywhere. */
  predicate Relevant(piece: string) {
    Contains(piece, "nonce") || Contains(piece, "realm") || Contains(piece, "qop")
  }

  /** Every relevant piece has a `"`; the client indexes past the first one
      and would panic otherwise. */
  predicate Parsable(h: Header) {
    var pieces := ChallengePieces(h);
    forall i :: 0 <= i < |pieces| && Relevant(pieces[i]) ==> '"' in pieces[i]
  }

  /** `strings.Split(piece, "\"")[1]`: the text after the first `"`, up to the
      second `"` or to the end of the piece. */
  function QuotedValue(piece: string): (v: string)
    requires '"' in piece
    ensures '"' !in v
  {
    SplitSingle(piece, '"');
    SplitOn(piece, '"')[1]
  }

  /** The text between the first two quotes is found whatever surrounds it. */
  lemma QuotedValueOf(before: string, v: string, after: string)
    requires '"' !in before && '"' !in v
    ensures QuotedValue(before + ['"'] + v) == v
    ensures QuotedValue(before + ['"'] + v + ['"'] + after) == v
  {
    SplitPrefix(before, v, '"');
    SplitNoSep(v, '"');
    assert before + ['"'] + v + ['"'] + after == before + ['"'] + (v + ['"'] + after);
    SplitPrefix(before, v + ['"'] + after, '"');
    SplitPrefix(v, after, '"');
  }

  /** One iteration of the outer loop: every wanted key the piece mentions is
      set to the piece's quoted value, in the order nonce, realm, qop. */
  function ApplyPiece(m: map<string, string>, piece: string): map<string, string>
    requires Relevant(piece) ==> '"' in piece
  {
    var m1 := if Contains(piece, "nonce") then m["nonce" := QuotedValue(piece)] else m;
    var m2 := if Contains(piece, "realm") then m1["realm" := QuotedValue(piece)] else m1;
    if Contains(piece, "qop") then m2["qop" := QuotedValue(piece)] else m2
  }

  /** The loop over all pieces, from the empty map; later pieces overwrite. */
  function Collect(pieces: seq<string>): map<string, string>
    requires forall i :: 0 <= i < |pieces| && Relevant(pieces[i]) ==> '"' in pieces[i]
  {
    if |pieces| == 0 then map[]
    else ApplyPiece(Collect(pieces[..|pieces| - 1]), pieces[|pieces| - 1])
  }

  /** `digestParts`: the challenge fields of a probe response. Without a
      challenge header the map is empty; it only ever holds wanted keys. */
  function DigestParts(h: Header): (d: map<string, string>)
    requires Parsable(h)
    ensures (WwwAuthenticate !in h || |h[WwwAuthenticate]| == 0) ==> d == map[]
    ensures d.Keys <= WantedKeys
    ensures forall k :: k in d ==> '"' !in d[k]
  {
    CollectKeys(ChallengePieces(h));
    Collect(ChallengePieces(h))
  }

  lemma {:induction false} CollectKeys(pieces: seq<string>)
    requires forall i :: 0 <= i < |pieces| && Relevant(pieces[i]) ==> '"' in pieces[i]
    ensures Collect(pieces).Keys <= WantedKeys
    ensures forall k :: k in Collect(pieces) ==> '"' !in Collect(pieces)[k]
    decreases |pieces|
  {
    if |pieces| > 0 {
      CollectKeys(pieces[..|pieces| - 1]);
    }
  }

  /** What one piece does to one wanted key. */
  lemma ApplyPieceKey(m: map<string, string>, piece: string, w: string)
    requires Relevant(piece) ==> '"' in piece
    requires w in WantedKeys
    ensures w in ApplyPiece(m, piece) <==> Contains(piece, w) || w in m
    ensures Contains(piece, w) ==> ApplyPiece(m, piece)[w] == QuotedValue(piece)
    ensures !Contains(piece, w) && w in m ==> ApplyPiece(m, piece)[w] == m[w]
  {
    var m1 := if Contains(piece, "nonce") then m["nonce" := QuotedValue(piece)] else m;
    var m2 := if Contains(piece, "realm") then m1["realm" := QuotedValue(piece)] else m1;
    assert ApplyPiece(m, piece) == if Contains(piece, "qop") then m2["qop" := QuotedValue(piece)] else m2;
    if w == "nonce" {
      assert w != "realm" && w != "qop";
    } else if w == "realm" {
      assert w != "qop";
    }
  }

  /** A wanted key is collected exactly when some piece mentions it. */
  lemma {:induction false} CollectHas(pieces: seq<string>, w: string)
    requires forall i :: 0 <= i < |pieces| && Relevant(pieces[i]) ==> '"' in pieces[i]
    requires w in WantedKeys
    ensures w in Collect(pieces) <==> exists i :: 0 <= i < |pieces| && Contains(pieces[i], w)
    decreases |pieces|
  {
    if |pieces| > 0 {
      var n := |pieces| - 1;
      var init := pieces[..n];
      assert forall i :: 0 <= i < |init| ==> init[i] == pieces[i];
      CollectHas(init, w);
      ApplyPieceKey(Collect(init), pieces[n], w);
    }
  }

  /** The piece that decided a collected key: it mentions the key, supplies
      its value, and no later piece mentions the key. */
  lemma {:induction false} CollectWitness(pieces: seq<string>, w: string) returns (i: int)
    requires forall i :: 0 <= i < |pieces| && Relevant(pieces[i]) ==> '"' in pieces[i]
    requires w in WantedKeys
    requires w in Collect(pieces)
    ensures 0 <= i < |pieces| && Contains(pieces[i], w)
    ensures Collect(pieces)[w] == QuotedValue(pieces[i])
    ensures forall j :: i < j < |pieces| ==> !Contains(pieces[j], w)
    decreases |pieces|
  {
    var n := |pieces| - 1;
    var init := pieces[..n];
    assert forall k :: 0 <= k < |init| ==> init[k] == pieces[k];
    ApplyPieceKey(Collect(init), pieces[n], w);
    if Contains(pieces[n], w) {
      i := n;
    } else {
      i := CollectWitness(init, w);
    }
  }

  /** Reference reading of the loop for one key: it is present exactly when
      some piece mentions it, and its value is the quoted value of the LAST
      piece that mentions it. */
  lemma CollectLastWins(pieces: seq<string>, w: string)
    requires forall i :: 0 <= i < |pieces| && Relevant(pieces[i]) ==> '"' in pieces[i]
    requires w in WantedKeys
    ensures w in Collect(pieces) <==> exists i :: 0 <= i < |pieces| && Contains(pieces[i], w)
    ensures w in Collect(pieces) ==>
      exists i :: 0 <= i < |pieces| && Contains(pieces[i], w)
        && Collect(pieces)[w] == QuotedValue(pieces[i])
        && forall j :: i < j < |pieces| ==> !Contains(pieces[j], w)
  {
    CollectHas(pieces, w);
    if w in Collect(pieces) {
      var i := CollectWitness(pieces, w);
    }
  }

  /** `digestParts` lets the last comma-piece that mentions a key decide its
      value; a piece that mentions several keys sets all of them. */
  lemma DigestPartsLastWins(h: Header, w: string)
    requires Parsable(h)
    requires w in WantedKeys
    ensures var pieces := ChallengePieces(h);
      && (w in DigestParts(h) <==> exists i :: 0 <= i < |pieces| && Contains(pieces[i], w))
      && (w in DigestParts(h) ==>
           exists i :: 0 <= i < |pieces| && Contains(pieces[i], w)
             && DigestParts(h)[w] == QuotedValue(pieces[i])
             && forall j :: i < j < |pieces| ==> !Contains(pieces[j], w))
  {
    CollectLastWins(ChallengePieces(h), w);
  }

  /** A key is absent from a string whose characters exclude the key's first. */
  lemma NotContained(s: string, sub: string)
    requires |sub| > 0 && sub[0] !in s
    ensures !Contains(s, sub)
  {
    forall i | 0 <= i <= |s| - |sub|
      ensures !OccursAt(s, sub, i)
    {
      assert s[i] in s;
      assert s[i..i + |sub|][0] == s[i];
    }
    ContainsAt(s, sub);
  }

  /** `s` holds the first letter of no wanted key other than `key`. */
  predicate NoOtherInitial(key: string, s: string) {
    && (key == "nonce" || 'n' !in s)
    && (key == "realm" || 'r' !in s)
    && (key == "qop" || 'q' !in s)
  }

  /** A challenge `Digest realm="<r>", qop="<q>", nonce="<n>"` yields exactly
      realm r, qop q and nonce n when no value holds a quote, a comma or the
      first letter of another wanted key. */
  lemma OrdinaryChallenge(h: Header, r: string, q: string, n: string)
    requires h == map[WwwAuthenticate := ["Digest realm=\"" + r + "\", qop=\"" + q + "\", nonce=\"" + n + "\""]]
    requires '"' !in r && '"' !in q && '"' !in n
    requires ',' !in r && ',' !in q && ',' !in n
    requires NoOtherInitial("realm", r) && NoOtherInitial("qop", q) && NoOtherInitial("nonce", n)
    ensures Parsable(h) && DigestParts(h) == map["realm" := r, "qop" := q, "nonce" := n]
  {
    var p0 := "Digest " + "realm" + "=\"" + r + "\"";
    var p1 := " " + "qop" + "=\"" + q + "\"";
    var p2 := " " + "nonce" + "=\"" + n + "\"";
    OrdinaryText(r, q, n, h[WwwAuthenticate][0], p0, p1, p2);
    JoinFew(p0, p1, p2, ',');
    ChallengeOf(h, [p0, p1, p2]);
    SnocKeyed([], map[], "Digest ", "realm", r, p0);
    assert [] + [p0] == [p0];
    SnocKeyed([p0], map["realm" := r], " ", "qop", q, p1);
    assert [p0] + [p1] == [p0, p1];
    SnocKeyed([p0, p1], map["realm" := r, "qop" := q], " ", "nonce", n, p2);
    assert [p0, p1] + [p2] == [p0, p1, p2];
  }

  /** The header text of `OrdinaryChallenge` is the comma-join of its three
      pieces. It stands apart so that the reasoning about literal strings runs
      without the header map in scope. */
  lemma OrdinaryText(r: string, q: string, n: string, v: string, p0: string, p1: string, p2: string)
    requires v == "Digest realm=\"" + r + "\", qop=\"" + q + "\", nonce=\"" + n + "\""
    requires p0 == "Digest " + "realm" + "=\"" + r + "\""
    requires p1 == " " + "qop" + "=\"" + q + "\""
    requires p2 == " " + "nonce" + "=\"" + n + "\""
    requires ',' !in r && ',' !in q && ',' !in n
    ensures v == p0 + [','] + p1 + [','] + p2
    ensures ',' !in p0 && ',' !in p1 && ',' !in p2
  {
    assert "Digest " + "realm" + "=\"" == "Digest realm=\"";
    assert " " + "qop" + "=\"" == " qop=\"";
    assert " " + "nonce" + "=\"" == " nonce=\"";
    assert "\", qop=\"" == "\"" + [','] + " qop=\"";
    assert "\", nonce=\"" == "\"" + [','] + " nonce=\"";
  }

  /** Appending a piece `<pre><key>="<v>"` that mentions no other wanted key
      to the challenge sets `key` to `v` in what was collected so far. */
  lemma SnocKeyed(init: seq<string>, m: map<string, string>, pre: string, key: string, v: string, p: string)
    requires forall i :: 0 <= i < |init| && Relevant(init[i]) ==> '"' in init[i]
    requires Collect(init) == m
    requires key in WantedKeys
    requires '"' !in pre && '"' !in key && '"' !in v
    requires p == pre + key + "=\"" + v + "\""
    requires NoOtherInitial(key, pre + v)
    ensures forall i :: 0 <= i < |init + [p]| && Relevant((init + [p])[i]) ==> '"' in (init + [p])[i]
    ensures Collect(init + [p]) == m[key := v]
  {
    KeyedPiece(m, pre, key, v, p);
    CollectSnoc(init, p);
  }

  lemma CollectSnoc(init: seq<string>, p: string)
    requires forall i :: 0 <= i < |init| && Relevant(init[i]) ==> '"' in init[i]
    requires Relevant(p) ==> '"' in p
    ensures forall i :: 0 <= i < |init + [p]| && Relevant((init + [p])[i]) ==> '"' in (init + [p])[i]
    ensures Collect(init + [p]) == ApplyPiece(Collect(init), p)
  {
    assert (init + [p])[..|init|] == init;
  }

  /** A piece `<pre><key>="<v>"` that mentions no other wanted key sets
      exactly `key`, to `v`. */
  lemma KeyedPiece(m: map<string, string>, pre: string, key: string, v: string, p: string)
    requires key in WantedKeys
    requires '"' !in pre && '"' !in key && '"' !in v
    requires p == pre + key + "=\"" + v + "\""
    requires NoOtherInitial(key, pre + v)
    ensures Relevant(p) && '"' in p
    ensures ApplyPiece(m, p) == m[key := v]
  {
    KeyedPieceScan(pre, key, v, p);
    OthersAbsent(pre, key, v, p);
  }

  /** No other wanted key occurs in `<pre><key>="<v>"` when its first letter
      is in neither `pre` nor `v`. */
  lemma OthersAbsent(pre: string, key: string, v: string, p: string)
    requires key in WantedKeys
    requires p == pre + key + "=\"" + v + "\""
    requires NoOtherInitial(key, pre + v)
    ensures forall w :: w in WantedKeys && w != key ==> !Contains(p, w)
  {
    forall w | w in WantedKeys && w != key
      ensures !Contains(p, w)
    {
      assert w[0] !in pre + v;
      assert w[0] !in key + "=\"" by {
        assert key + "=\"" == key + ['='] + ['"'];
      }
      assert p == pre + (key + "=\"") + v + ['"'];
      NotContained(p, w);
    }
  }

  /** The piece `<pre><key>="<v>"` mentions `key` and quotes `v`. */
  lemma KeyedPieceScan(pre: string, key: string, v: string, p: string)
    requires '"' !in pre && '"' !in key && '"' !in v
    requires p == pre + key + "=\"" + v + "\""
    ensures Contains(p, key) && '"' in p && QuotedValue(p) == v
  {
    var before := pre + key + "=";
    assert '"' !in before;
    assert p == before + ['"'] + v + ['"'] + "";
    QuotedValueOf(before, v, "");
    assert p[|pre|..|pre| + |key|] == key;
    OccursContains(p, key, |pre|);
  }

  /** A field of the digest map, or "" when the map lacks it (Go's zero value
      for a missing key). */
  function Lookup(d: map<string, string>, k: string): string
  {
    if k in d then d[k] else ""
  }

  /** The nonce count as the client writes it: the Go integer literal
      `00000001` is the number 1, printed in decimal as `1` (RFC 2617 section
      3.2.2 asks for the eight hex digits `00000001`). */
  const NonceCount := "1"

  /** `md5` returns lower-case hexadecimal text, as `hex.EncodeToString`
      does. */
  ghost predicate HexDigest(md5: string -> string) {
    forall s :: forall i :: 0 <= i < |md5(s)| ==> md5(s)[i] in "0123456789abcdef"
  }

  /** `key="value"` pairs joined by `, `. */
  function Render(pairs: seq<(string, string)>): string
  {
    if |pairs| == 0 then ""
    else
      pairs[0].0 + "=\"" + pairs[0].1 + "\""
      + (if |pairs| == 1 then "" else ", " + Render(pairs[1..]))
  }

  /** The request digest of RFC 2617 section 3.2.2.1 for qop "auth", with the
      client's nonce count. */
  function ResponseDigest(d: map<string, string>, cnonce: string, md5: string -> string): string
  {
    var ha1 := md5(Lookup(d, "username") + ":" + Lookup(d, "realm") + ":" + Lookup(d, "password"));
    var ha2 := md5(Lookup(d, "method") + ":" + Lookup(d, "uri"));
    md5(ha1 + ":" + Lookup(d, "nonce") + ":" + NonceCount + ":" + cnonce + ":" + Lookup(d, "qop") + ":" + ha2)
  }

  /** The fields of the `Authorization` header in the order they are
      written. */
  function AuthorizationFields(d: map<string, string>, cnonce: string, md5: string -> string): seq<(string, string)>
  {
    [ ("username", Lookup(d, "username")), ("realm", Lookup(d, "realm")),
      ("nonce", Lookup(d, "nonce")), ("uri", Lookup(d, "uri")), ("cnonce", cnonce),
      ("nc", NonceCount), ("qop", Lookup(d, "qop")),
      ("response", ResponseDigest(d, cnonce, md5)) ]
  }

  /** The header text can be read back: the hash is hexadecimal and the
      client nonce and the quoted fields of the map hold no `"`. */
  ghost predicate Quotable(d: map<string, string>, cnonce: string, md5: string -> string) {
    && HexDigest(md5)
    && '"' !in cnonce
    && forall k :: k in {"username", "realm", "nonce", "uri", "qop"} ==> '"' !in Lookup(d, k)
  }

  /** `getDigestAuth`: the value of the `Authorization` header, with `md5`
      the hash and `cnonce` the client nonce the code draws at random. Read
      back, it carries, in order, the user name, the challenge's realm and
      nonce, the uri, the client nonce, the nonce count 1, the qop, and the
      response MD5(HA1:nonce:1:cnonce:qop:HA2) with
      HA1 = MD5(username:realm:password) and HA2 = MD5(method:uri); a key
      missing from the map contributes "". */
  function GetDigestAuth(d: map<string, string>, cnonce: string, md5: string -> string): (header: string)
    ensures Quotable(d, cnonce, md5) ==> ParseAuthorization(header) == Some(
      [ ("username", Lookup(d, "username")), ("realm", Lookup(d, "realm")),
        ("nonce", Lookup(d, "nonce")), ("uri", Lookup(d, "uri")), ("cnonce", cnonce),
        ("nc", "1"), ("qop", Lookup(d, "qop")),
        ("response",
         md5(md5(Lookup(d, "username") + ":" + Lookup(d, "realm") + ":" + Lookup(d, "password"))
             + ":" + Lookup(d, "nonce") + ":1:" + cnonce + ":" + Lookup(d, "qop") + ":"
             + md5(Lookup(d, "method") + ":" + Lookup(d, "uri")))) ])
  {
    AuthorizationRoundTrip(d, cnonce, md5);
    "Digest " + Render(AuthorizationFields(d, cnonce, md5))
  }

  /** Reads back `key="value"` pairs separated by `, `; `None` when the text
      has any other shape. */
  function ParsePairs(s: string): Option<seq<(string, string)>>
    decreases |s|
  {
    match UntilChar(s, '=')
    case None => None
    case Some((key, afterEq)) =>
      if |afterEq| == 0 || afterEq[0] != '"' then None
      else
        match UntilChar(afterEq[1..], '"')
        case None => None
        case Some((value, tail)) =>
          if tail == "" then Some([(key, value)])
          else if |tail| >= 2 && tail[..2] == ", " then
            match ParsePairs(tail[2..])
            case None => None
            case Some(rest) => Some([(key, value)] + rest)
          else None
  }

  /** Reads an `Authorization: Digest` header value back into its fields. */
  function ParseAuthorization(header: string): Option<seq<(string, string)>>
  {
    if IsPrefix("Digest ", header) then ParsePairs(header[7..]) else None
  }

  /** One `key="value"` pair at the front of the text, followed by `tail`,
      is found by the two scans of `ParsePairs`. */
  lemma PairScans(key: string, value: string, tail: string)
    requires '=' !in key && '"' !in value
    ensures var afterEq := ['"'] + value + ['"'] + tail;
      && UntilChar(key + "=\"" + value + "\"" + tail, '=') == Some((key, afterEq))
      && afterEq[0] == '"'
      && UntilChar(afterEq[1..], '"') == Some((value, tail))
  {
    var afterEq := ['"'] + value + ['"'] + tail;
    KeyScan(key, afterEq, key + "=\"" + value + "\"" + tail);
    ValueScan(value, tail, afterEq);
  }

  lemma KeyScan(key: string, afterEq: string, s: string)
    requires '=' !in key && s == key + ['='] + afterEq
    ensures UntilChar(s, '=') == Some((key, afterEq))
  {
    UntilCharConcat(key, afterEq, '=');
  }

  lemma ValueScan(value: string, tail: string, afterEq: string)
    requires '"' !in value && afterEq == ['"'] + value + ['"'] + tail
    ensures afterEq[0] == '"' && UntilChar(afterEq[1..], '"') == Some((value, tail))
  {
    assert afterEq[1..] == value + ['"'] + tail;
    UntilCharConcat(value, tail, '"');
  }

  /** Parsing undoes rendering when keys hold no `=` and values no `"`. */
  lemma {:induction false} RenderParse(pairs: seq<(string, string)>)
    requires |pairs| >= 1
    requires forall i :: 0 <= i < |pairs| ==> '=' !in pairs[i].0 && '"' !in pairs[i].1
    ensures ParsePairs(Render(pairs)) == Some(pairs)
    decreases |pairs|
  {
    var key, value := pairs[0].0, pairs[0].1;
    if |pairs| == 1 {
      assert Render(pairs) == key + "=\"" + value + "\"" + "";
      ParseLast(key, value);
      assert pairs == [(key, value)];
    } else {
      var rest := Render(pairs[1..]);
      assert Render(pairs) == key + "=\"" + value + "\"" + (", " + rest);
      RenderParse(pairs[1..]);
      ParseCons(key, value, rest);
      assert [(key, value)] + pairs[1..] == pairs;
    }
  }

  /** The last pair of a header. */
  lemma ParseLast(key: string, value: string)
    requires '=' !in key && '"' !in value
    ensures ParsePairs(key + "=\"" + value + "\"" + "") == Some([(key, value)])
  {
    PairScans(key, value, "");
  }

  /** A pair followed by `, ` and more pairs. */
  lemma ParseCons(key: string, value: string, rest: string)
    requires '=' !in key && '"' !in value
    ensures ParsePairs(key + "=\"" + value + "\"" + (", " + rest)) ==
      match ParsePairs(rest)
      case None => None
      case Some(r) => Some([(key, value)] + r)
  {
    var tail := ", " + rest;
    PairScans(key, value, tail);
    assert tail != "" && tail[..2] == ", " && tail[2..] == rest;
  }

  /** A hexadecimal digest holds no quote. */
  lemma HexNoQuote(md5: string -> string, s: string)
    requires HexDigest(md5)
    ensures '"' !in md5(s)
  {
    forall i | 0 <= i < |md5(s)|
      ensures md5(s)[i] != '"'
    {
      assert md5(s)[i] in "0123456789abcdef";
    }
  }

  /** The rendered fields parse back to themselves, and the response field
      is the digest with the nonce count written `1`. */
  lemma AuthorizationRoundTrip(d: map<string, string>, cnonce: string, md5: string -> string)
    ensures Quotable(d, cnonce, md5) ==>
      ParseAuthorization("Digest " + Render(AuthorizationFields(d, cnonce, md5)))
      == Some(AuthorizationFields(d, cnonce, md5))
    ensures AuthorizationFields(d, cnonce, md5)[7].1 ==
      md5(md5(Lookup(d, "username") + ":" + Lookup(d, "realm") + ":" + Lookup(d, "password"))
          + ":" + Lookup(d, "nonce") + ":1:" + cnonce + ":" + Lookup(d, "qop") + ":"
          + md5(Lookup(d, "method") + ":" + Lookup(d, "uri")))
  {
    var fields := AuthorizationFields(d, cnonce, md5);
    var ha1 := md5(Lookup(d, "username") + ":" + Lookup(d, "realm") + ":" + Lookup(d, "password"));
    var ha2 := md5(Lookup(d, "method") + ":" + Lookup(d, "uri"));
    var input := ha1 + ":" + Lookup(d, "nonce") + ":" + NonceCount + ":" + cnonce + ":" + Lookup(d, "qop") + ":" + ha2;
    assert input == ha1 + ":" + Lookup(d, "nonce") + ":1:" + cnonce + ":" + Lookup(d, "qop") + ":" + ha2;
    if Quotable(d, cnonce, md5) {
      HexNoQuote(md5, input);
      RenderParse(fields);
      var header := "Digest " + Render(fields);
      assert header[7..] == Render(fields);
    }
  }

  /** A realm whose value mentions "nonce" also overwrites the nonce: the
      challenge `Digest nonce="<n>", realm="<r>"` yields nonce r, not n,
      because one piece sets every key it mentions and later pieces win. */
  lemma RealmMentioningNonce(h: Header, n: string, r: string)
    requires h == map[WwwAuthenticate := ["Digest nonce=\"" + n + "\", realm=\"" + r + "\""]]
    requires '"' !in n && '"' !in r && ',' !in n && ',' !in r
    requires NoOtherInitial("nonce", n)
    requires Contains(r, "nonce") && 'q' !in r
    ensures Parsable(h) && DigestParts(h) == map["nonce" := r, "realm" := r]
  {
    var p0 := "Digest " + "nonce" + "=\"" + n + "\"";
    var p1 := " realm=" + ['"'] + r + ['"'];
    MisparseText(n, r, h[WwwAuthenticate][0], p0, p1);
    JoinFew(p0, p1, "", ',');
    ChallengeOf(h, [p0, p1]);
    MisparseCollect(n, r, p0, p1);
  }

  /** The header text of `RealmMentioningNonce` is the comma-join of its two
      pieces, stated apart from the header map like `OrdinaryText`. */
  lemma MisparseText(n: string, r: string, v: string, p0: string, p1: string)
    requires ',' !in n && ',' !in r
    requires v == "Digest nonce=\"" + n + "\", realm=\"" + r + "\""
    requires p0 == "Digest " + "nonce" + "=\"" + n + "\""
    requires p1 == " realm=" + ['"'] + r + ['"']
    ensures v == p0 + [','] + p1
    ensures ',' !in p0 && ',' !in p1
  {
  }

  lemma MisparseCollect(n: string, r: string, p0: string, p1: string)
    requires '"' !in n && '"' !in r
    requires NoOtherInitial("nonce", n)
    requires Contains(r, "nonce") && 'q' !in r
    requires p0 == "Digest " + "nonce" + "=\"" + n + "\""
    requires p1 == " realm=" + ['"'] + r + ['"']
    ensures forall i :: 0 <= i < |[p0, p1]| && Relevant([p0, p1][i]) ==> '"' in [p0, p1][i]
    ensures Collect([p0, p1]) == map["nonce" := r, "realm" := r]
  {
    NonceFirst(n, p0);
    RealmPieceFacts(r, p1);
    CollectSnoc([p0], p1);
    assert [p0] + [p1] == [p0, p1];
    assert ApplyPiece(map["nonce" := n], p1) == map["nonce" := r, "realm" := r];
  }

  lemma NonceFirst(n: string, p0: string)
    requires '"' !in n && NoOtherInitial("nonce", n)
    requires p0 == "Digest " + "nonce" + "=\"" + n + "\""
    ensures Relevant(p0) ==> '"' in p0
    ensures Collect([p0]) == map["nonce" := n]
  {
    SnocKeyed([], map[], "Digest ", "nonce", n, p0);
    assert [] + [p0] == [p0];
  }

  /** The pieces of a challenge that is their comma-join. */
  lemma ChallengeOf(h: Header, pieces: seq<string>)
    requires WwwAuthenticate in h && |h[WwwAuthenticate]| > 0 && |pieces| >= 1
    requires h[WwwAuthenticate][0] == Join(pieces, ',')
    requires forall i :: 0 <= i < |pieces| ==> ',' !in pieces[i]
    ensures ChallengePieces(h) == pieces
  {
    SplitJoin(pieces, ',');
  }

  /** The piece ` realm="<r>"` with `r` mentioning "nonce" but not "qop". */
  lemma RealmPieceFacts(r: string, p: string)
    requires '"' !in r && Contains(r, "nonce") && 'q' !in r
    requires p == " realm=" + ['"'] + r + ['"']
    ensures Contains(p, "nonce") && Contains(p, "realm") && !Contains(p, "qop")
    ensures '"' in p && QuotedValue(p) == r
  {
    assert Contains(p, "nonce") by {
      ContainsWithin(" realm=" + ['"'], r, ['"'], "nonce");
    }
    assert Contains(p, "realm") by {
      assert p[1..6] == "realm";
      OccursContains(p, "realm", 1);
    }
    assert !Contains(p, "qop") by {
      assert 'q' !in " realm=" + ['"'];
      NotContained(p, "qop");
    }
    assert QuotedValue(p) == r by {
      assert p == " realm=" + ['"'] + r + ['"'] + "";
      QuotedValueOf(" realm=", r, "");
    }
  }
}

=== FILE: envelope.dfy ===
/** The SOAP Body decoder: the custom `UnmarshalXML` of the Body record,
    run over an abstract stream of XML tokens. */
module Envelope {

  import opened Base
  import opened Errors

  /** Namespace of the SOAP 1.1 envelope, body and fault elements. */
  const SoapEnvNs := "http://schemas.xmlsoap.org/soap/envelope/"
  const FaultLocal := "Fault"

  /** The decoder's own error texts. */
  const ContentMissing := "Content must be a pointer to a struct"
  const MultipleElements := "Found multiple elements inside SOAP body; not wrapped-document/literal WS-I compliant"

  /** What the tokenizer reports when the input stops inside the Body. */
  const Truncated := Library("unexpected EOF")

  /** One token as the Body decoder sees it, with `P` the caller's payload
      type. A `Start` stands for a whole child element: the decoder either
      hands the subtree to the library decoder as a Fault or as the caller's
      payload, and the token records what each of the two would yield. */
  datatype Tok<P> =
    | Start(space: string, local: string, asFault: Result<Fault, Error>, asContent: Result<P, Error>)
    | End
    /** Character data, comments, processing instructions, directives. */
    | Other
    /** The tokenizer failed. */
    | ReadErr(err: Error)

  /** The Body's two slots: the Fault pointer and the Content interface. A
      `Some` content is the caller's value, as last written. */
  datatype Body<P> = Body(fault: Option<Fault>, content: Option<P>)

  /** At most one of the two slots is set. */
  predicate Exclusive<P>(b: Body<P>) {
    !(b.fault.Some? && b.content.Some?)
  }

  predicate IsFaultName(space: string, local: string) {
    space == SoapEnvNs && local == FaultLocal
  }

  /** Decodes one Body element from the tokens that follow its start tag.
      Without a Content slot it fails before looking at any token. A body
      that starts with both slots empty never ends with both set, and one
      with a slot set never ends with both empty. */
  function DecodeBody<P>(b: Body<P>, toks: seq<Tok<P>>): (r: Result<Body<P>, Error>)
    ensures b.content.None? ==> r == Failure(Unmarshal(ContentMissing))
    ensures r.Success? && Exclusive(b) ==> Exclusive(r.value)
    ensures r.Success? ==> r.value.fault.Some? || r.value.content.Some?
  {
    if b.content.None? then Failure(Unmarshal(ContentMissing))
    else Scan(b, toks, false)
  }

  /** The token loop; `consumed` records that a child element was decoded.
      Once it is set the slots no longer change. */
  function Scan<P>(b: Body<P>, toks: seq<Tok<P>>, consumed: bool): (r: Result<Body<P>, Error>)
    ensures r.Success? && b.fault.None? ==> Exclusive(r.value)
    ensures r.Success? && (b.fault.Some? || b.content.Some?) ==> r.value.fault.Some? || r.value.content.Some?
    ensures r.Success? && consumed ==> r.value == b
    decreases |toks|
  {
    if |toks| == 0 then Failure(Truncated)
    else
      match toks[0]
      case ReadErr(e) => Failure(e)
      case End => Success(b)
      case Other => Scan(b, toks[1..], consumed)
      case Start(space, local, asFault, asContent) =>
        if consumed then Failure(Unmarshal(MultipleElements))
        else if IsFaultName(space, local) then
          match asFault
          case Failure(e) => Failure(e)
          case Success(f) => Scan(Body(Some(f), None), toks[1..], true)
        else
          match asContent
          case Failure(e) => Failure(e)
          case Success(v) => Scan(b.(content := Some(v)), toks[1..], true)
  }

  /** The tokens that are not skipped: `toks` without its `Other` tokens. */
  function Significant<P>(toks: seq<Tok<P>>): (sig: seq<Tok<P>>)
    ensures forall i :: 0 <= i < |sig| ==> !sig[i].Other?
    ensures |sig| <= |toks|
  {
    if |toks| == 0 then []
    else if toks[0].Other? then Significant(toks[1..])
    else [toks[0]] + Significant(toks[1..])
  }

  /** Reference definition of the Body decoder by lookahead on the
      significant tokens: the first decides the branch (end, error, Fault or
      payload), and after a decoded child the second must be the Body's end
      tag. */
  function Lookahead<P>(b: Body<P>, sig: seq<Tok<P>>): Result<Body<P>, Error>
    requires forall i :: 0 <= i < |sig| ==> !sig[i].Other?
  {
    if b.content.None? then Failure(Unmarshal(ContentMissing))
    else if |sig| == 0 then Failure(Truncated)
    else
      match sig[0]
      case End => Success(b)
      case ReadErr(e) => Failure(e)
      case Start(_, _, _, _) =>
        match Child(b, sig[0])
        case Failure(e) => Failure(e)
        case Success(after) => AfterChild(after, sig[1..])
  }

  /** The slots after decoding the first child element `s`: a Fault element
      replaces the Content slot by the Fault; any other element is decoded
      into the Content slot. */
  function Child<P>(b: Body<P>, s: Tok<P>): Result<Body<P>, Error>
    requires s.Start?
  {
    if IsFaultName(s.space, s.local) then
      match s.asFault
      case Failure(e) => Failure(e)
      case Success(f) => Success(Body(Some(f), None))
    else
      match s.asContent
      case Failure(e) => Failure(e)
      case Success(v) => Success(b.(content := Some(v)))
  }

  /** What may follow the one child element, among the significant tokens. */
  function AfterChild<P>(b: Body<P>, rest: seq<Tok<P>>): Result<Body<P>, Error>
    requires forall i :: 0 <= i < |rest| ==> !rest[i].Other?
  {
    if |rest| == 0 then Failure(Truncated)
    else
      match rest[0]
      case End => Success(b)
      case ReadErr(e) => Failure(e)
      case Start(_, _, _, _) => Failure(Unmarshal(MultipleElements))
  }

  /** Skipped tokens never matter, wherever they occur. */
  lemma {:induction false} ScanSkipsOther<P>(b: Body<P>, toks: seq<Tok<P>>, consumed: bool)
    ensures Scan(b, toks, consumed) == Scan(b, Significant(toks), consumed)
    decreases |toks|
  {
    if |toks| > 0 {
      var sig := Significant(toks);
      if toks[0].Other? {
        ScanSkipsOther(b, toks[1..], consumed);
      } else {
        assert sig == [toks[0]] + Significant(toks[1..]);
        assert sig[1..] == Significant(toks[1..]);
        match toks[0]
        case ReadErr(e) =>
        case End =>
        case Start(space, local, asFault, asContent) =>
          if !consumed {
            if IsFaultName(space, local) {
              if asFault.Success? {
                ScanSkipsOther(Body(Some(asFault.value), None), toks[1..], true);
              }
            } else if asContent.Success? {
              ScanSkipsOther(b.(content := Some(asContent.value)), toks[1..], true);
            }
          }
      }
    }
  }

  /** The loop over a consumed body, on significant tokens, is `AfterChild`. */
  lemma ScanAfterChild<P>(b: Body<P>, sig: seq<Tok<P>>)
    requires forall i :: 0 <= i < |sig| ==> !sig[i].Other?
    ensures Scan(b, sig, true) == AfterChild(b, sig)
  {
  }

  /** The Body decoder agrees with the lookahead definition: skip non-element
      tokens, branch on the first element, demand the end tag after it. */
  lemma DecodeBodyIsLookahead<P>(b: Body<P>, toks: seq<Tok<P>>)
    ensures DecodeBody(b, toks) == Lookahead(b, Significant(toks))
  {
    if b.content.Some? {
      var sig := Significant(toks);
      ScanSkipsOther(b, toks, false);
      if |sig| > 0 && sig[0].Start? {
        var s := sig[0];
        assert forall i :: 0 <= i < |sig[1..]| ==> !sig[1..][i].Other?;
        if IsFaultName(s.space, s.local) {
          if s.asFault.Success? {
            ScanAfterChild(Body(Some(s.asFault.value), None), sig[1..]);
          }
        } else if s.asContent.Success? {
          ScanAfterChild(b.(content := Some(s.asContent.value)), sig[1..]);
        }
      }
    }
  }

  /** A Body whose first significant token is its end tag leaves both slots
      as they were. */
  lemma EmptyBodyUnchanged<P>(b: Body<P>, toks: seq<Tok<P>>)
    requires b.content.Some?
    requires |Significant(toks)| > 0 && Significant(toks)[0] == End
    ensures DecodeBody(b, toks) == Success(b)
  {
    DecodeBodyIsLookahead(b, toks);
  }

  /** A first child that is a SOAP Fault fills the Fault slot and clears the
      Content slot. */
  lemma FaultBranch<P>(b: Body<P>, toks: seq<Tok<P>>, f: Fault)
    requires b.content.Some?
    requires var sig := Significant(toks);
      |sig| >= 2 && sig[0].Start? && sig[0].space == SoapEnvNs && sig[0].local == "Fault"
      && sig[0].asFault == Success(f) && sig[1] == End
    ensures DecodeBody(b, toks) == Success(Body(Some(f), None))
  {
    DecodeBodyIsLookahead(b, toks);
  }

  /** Any other first child is decoded into the Content slot; the Fault slot
      is left alone. */
  lemma PayloadBranch<P>(b: Body<P>, toks: seq<Tok<P>>, v: P)
    requires b.content.Some?
    requires var sig := Significant(toks);
      |sig| >= 2 && sig[0].Start? && !(sig[0].space == SoapEnvNs && sig[0].local == "Fault")
      && sig[0].asContent == Success(v) && sig[1] == End
    ensures DecodeBody(b, toks) == Success(Body(b.fault, Some(v)))
  {
    DecodeBodyIsLookahead(b, toks);
  }

  /** A failure to decode the first child is the Body's failure, unchanged. */
  lemma ChildErrorPropagates<P>(b: Body<P>, toks: seq<Tok<P>>, e: Error)
    requires b.content.Some?
    requires var sig := Significant(toks);
      |sig| >= 1 && sig[0].Start?
      && (if IsFaultName(sig[0].space, sig[0].local) then sig[0].asFault == Failure(e)
          else sig[0].asContent == Failure(e))
    ensures DecodeBody(b, toks) == Failure(e)
  {
    DecodeBodyIsLookahead(b, toks);
  }

  /** A second element after a decoded first one, Fault or payload, is
      rejected. */
  lemma SecondElementRejected<P>(b: Body<P>, toks: seq<Tok<P>>)
    requires b.content.Some?
    requires var sig := Significant(toks);
      |sig| >= 2 && sig[0].Start? && Child(b, sig[0]).Success? && sig[1].Start?
    ensures DecodeBody(b, toks) == Failure(Unmarshal(MultipleElements))
  {
    DecodeBodyIsLookahead(b, toks);
  }

  /** A tokenizer error before the first element is the Body's failure. */
  lemma ReadErrorPropagates<P>(b: Body<P>, toks: seq<Tok<P>>, e: Error)
    requires b.content.Some?
    requires |Significant(toks)| > 0 && Significant(toks)[0] == ReadErr(e)
    ensures DecodeBody(b, toks) == Failure(e)
  {
    DecodeBodyIsLookahead(b, toks);
  }
}

=== FILE: errors.dfy ===
/** The error values the transport hands back to its callers. */
module Errors {

  /** A SOAP 1.1 Fault (section 4.4 of the W3C SOAP 1.1 Note), as the client
      decodes it: `faultcode`, `faultstring`, `faultactor` and `detail`, each
      empty when absent. */
  datatype Fault = Fault(code: string, faultString: string, actor: string, detail: string)

  /** The Go `error` values that reach a caller of the client. */
  datatype Error =
    /** An `xml.UnmarshalError` raised by the Body decoder itself. */
    | Unmarshal(msg: string)
    /** A decoded `*SOAPFault`, returned as the call's error. */
    | SoapFault(fault: Fault)
    /** An error produced by a library the model does not look inside
        (XML encoder or tokenizer, HTTP client, body reader), passed on as is. */
    | Library(msg: string)
    /** An error built with `fmt.Errorf`. */
    | Formatted(msg: string)

  /** The text of `err.Error()`. A Fault's text is its `faultstring` and
      nothing else. */
  function Message(err: Error): (text: string)
    ensures err.SoapFault? ==> text == err.fault.faultString
  {
    match err
    case Unmarshal(m) => m
    case SoapFault(f) => f.faultString
    case Library(m) => m
    case Formatted(m) => m
  }
}

=== FILE: powerschool.dfy ===
/** The PowerSchool public-portal helpers built on the SOAP client: the
    client constructor and the log-in-then-fetch-student sequence. The remote
    operations themselves are parameters: each stands for the facade method
    that sends one request through `Call` and returns its decoded response or
    its error. */
module PowerSchool {

  import opened Base
  import opened Errors
  import opened Text
  import opened Transport

  /** The credentials every portal client authenticates with. */
  const PortalLogin := "pearson"
  const PortalPassword := "m0bApP5"

  /** Path of the service description, appended to the server URL. */
  const ServiceRoot := "/pearson-rest"
  const ServicePath := ServiceRoot + "/services/PublicPortalServiceJSON?wsdl"

  /** The generated service wrapper around one SOAP client. */
  datatype PortType = PortType(client: SoapClient)

  /** The server URL with a trailing `/`: one is added exactly when the URL
      does not already end in one. */
  function Normalize(url: string): (n: string)
    requires |url| > 0
    ensures |n| > 0 && n[|n| - 1] == '/'
    ensures n == url <==> url[|url| - 1] == '/'
    ensures n == url || n == url + "/"
  {
    if url[|url| - 1] != '/' then url + "/" else url
  }

  /** A normalised URL is left as it is. */
  lemma NormalizeIdempotent(url: string)
    requires |url| > 0
    ensures Normalize(Normalize(url)) == Normalize(url)
  {
  }

  /** `Client`: a portal client for the server at `url` (which must be
      non-empty), talking to the service description under the normalised
      URL, with the fixed portal credentials and certificate checks
      skipped. */
  function Client(url: string): (p: PortType)
    requires |url| > 0
    ensures p.client.auth == DigestAuth(PortalLogin, PortalPassword)
    ensures p.client.tls
    ensures IsPrefix(url, p.client.url)
    ensures p.client.url == Normalize(url) + ServicePath
  {
    PortType(SoapClient(Normalize(url) + ServicePath, true, DigestAuth(PortalLogin, PortalPassword)))
  }

  /** The service URL always holds `//pearson-rest`: the normalised URL ends
      in `/` and the path starts with one. */
  lemma ServiceUrlDoubleSlash(url: string)
    requires |url| > 0
    ensures Contains(Client(url).client.url, "//pearson-rest")
  {
    var n := Normalize(url);
    var u := Client(url).client.url;
    var i := |n| - 1;
    assert u == n + ServicePath;
    assert ServicePath[..|ServiceRoot|] == ServiceRoot;
    assert u[i + 1..i + 14] == ServicePath[..13];
    assert u[i..i + 14] == [u[i]] + u[i + 1..i + 14];
    assert u[i..i + |"//pearson-rest"|] == "//pearson-rest";
    assert OccursAt(u, "//pearson-rest", i);
    OccursContains(u, "//pearson-rest", i);
  }

  /** Go's `time.Time`, kept opaque as an instant; instant 0 stands for the
      zero value. */
  datatype Time = Time(instant: int)
  const ZeroTime := Time(0)

  /** The locale record of a session (its set-valued fields left out). */
  datatype Locale = Locale(
    iso3Country: string, iso3Language: string, country: string, displayCountry: string,
    displayLanguage: string, displayName: string, displayScript: string,
    displayVariant: string, language: string, script: string, variant: string)

  datatype ServerInfo = ServerInfo(
    apiVersion: string, dayLightSavings: Int32, parentSAMLEndPoint: string,
    publicPortalDisabled: bool, publicPortalDisabledMessage: string, rawOffset: Int32,
    serverTime: Time, studentSAMLEndPoint: string, teacherSAMLEndPoint: string,
    timeZoneName: string)

  /** A server-info record with the API version set and every other field at
      its zero value. */
  function ApiVersionOnly(apiVersion: string): ServerInfo
  {
    ServerInfo(apiVersion, 0, "", false, "", 0, ZeroTime, "", "", "")
  }

  datatype UserSessionVO = UserSessionVO(
    locale: Option<Locale>, serverCurrentTime: Time, serverInfo: Option<ServerInfo>,
    serviceTicket: string, studentIDs: seq<Int32>, userId: Int64, userType: Int32)

  datatype MessageVO = MessageVO(description: string, id: string, msgCode: Int32, title: string)

  /** A student's data record: schema data the helpers pass through
      untouched, kept as its fields by XML name. */
  datatype StudentDataVO = StudentDataVO(fields: map<string, string>)

  /** The `return` element of a portal response (its course-request fields
      left out). A `None` message list is a nil slice. */
  datatype ResultsVO = ResultsVO(
    messageVOs: Option<seq<MessageVO>>, studentDataVOs: seq<StudentDataVO>,
    userSessionVO: Option<UserSessionVO>)

  datatype LoginToPublicPortal = LoginToPublicPortal(username: string, password: string)
  datatype LoginToPublicPortalResponse = LoginToPublicPortalResponse(ret: Option<ResultsVO>)
  datatype QueryIncludeListVO = QueryIncludeListVO(includes: seq<Int32>)
  datatype GetStudentData = GetStudentData(
    userSessionVO: Option<UserSessionVO>, studentIDs: seq<Int64>, qil: Option<QueryIncludeListVO>)
  datatype GetStudentDataResponse = GetStudentDataResponse(ret: Option<ResultsVO>)

  /** The `loginToPublicPortal` and `getStudentData` remote operations. */
  type LoginCall = LoginToPublicPortal -> Result<LoginToPublicPortalResponse, Error>
  type DataCall = GetStudentData -> Result<GetStudentDataResponse, Error>

  /** A log-in outcome the helper can handle without a nil dereference or an
      index out of range: an error, or a `return` element that carries either
      a non-empty message list, or a session with server info and at least
      one student. */
  predicate LoginUsable(res: Result<LoginToPublicPortalResponse, Error>) {
    res.Success? ==>
      && res.value.ret.Some?
      && match res.value.ret.value.messageVOs
         case Some(ms) => |ms| > 0
         case None =>
           var us := res.value.ret.value.userSessionVO;
           us.Some? && us.value.serverInfo.Some? && |us.value.studentIDs| > 0
  }

  /** The three results of the session helper: session, student id, error. */
  datatype SessionResult = SessionResult(session: Option<UserSessionVO>, studentId: Int64, err: Option<Error>)

  /** The session the helper hands on: user id, service ticket, server time
      and user type of the server's session, server info reduced to the API
      version, no locale and no student list. */
  function TrimSession(us: UserSessionVO): UserSessionVO
    requires us.serverInfo.Some?
  {
    UserSessionVO(None, us.serverCurrentTime, Some(ApiVersionOnly(us.serverInfo.value.apiVersion)),
                  us.serviceTicket, [], us.userId, us.userType)
  }

  /** Trimming keeps what it copies, and a trimmed session is trimmed
      again to itself; a session is its own trim exactly when it has no
      locale, no student list and server info holding only an API version. */
  lemma TrimSessionProperties(us: UserSessionVO)
    requires us.serverInfo.Some?
    ensures var t := TrimSession(us);
      && t.userId == us.userId && t.serviceTicket == us.serviceTicket
      && t.serverCurrentTime == us.serverCurrentTime && t.userType == us.userType
      && t.serverInfo.Some? && t.serverInfo.value.apiVersion == us.serverInfo.value.apiVersion
      && TrimSession(t) == t
    ensures TrimSession(us) == us <==>
      us.locale.None? && us.studentIDs == [] && us.serverInfo == Some(ApiVersionOnly(us.serverInfo.value.apiVersion))
  {
  }

  /** The text of the error made from the first server message. */
  function MessageError(m: MessageVO): Error
  {
    Formatted("error: " + m.title + " - " + m.description)
  }

  /** `CreateUserSessionAndStudent`: logs in with the user's credentials. A
      failed call is returned unchanged, a server message becomes the error
      `error: <title> - <description>` of the first message, and otherwise
      the result is the trimmed session and the first student id. An error
      always comes with no session and id 0. */
  function CreateUserSessionAndStudent(username: string, password: string, login: LoginCall): (r: SessionResult)
    requires LoginUsable(login(LoginToPublicPortal(username, password)))
    ensures r.err.Some? <==> r.session.None?
    ensures r.err.Some? ==> r.studentId == 0
    ensures var res := login(LoginToPublicPortal(username, password));
      && (res.Failure? ==> r.err == Some(res.error))
      && (res.Success? && res.value.ret.value.messageVOs.Some? ==>
            r.err == Some(Formatted("error: " + res.value.ret.value.messageVOs.value[0].title
                                    + " - " + res.value.ret.value.messageVOs.value[0].description)))
      && (res.Success? && res.value.ret.value.messageVOs.None? ==> r.err.None?)
      && (r.session.Some? ==>
            && res.Success? && res.value.ret.value.messageVOs.None?
            && var us := res.value.ret.value.userSessionVO.value;
            && r.session.value.userId == us.userId
            && r.session.value.serviceTicket == us.serviceTicket
            && r.session.value.serverCurrentTime == us.serverCurrentTime
            && r.session.value.userType == us.userType
            && r.session.value.serverInfo == Some(ApiVersionOnly(us.serverInfo.value.apiVersion))
            && r.session.value.locale.None? && r.session.value.studentIDs == []
            && r.studentId as int == us.studentIDs[0] as int)
  {
    match login(LoginToPublicPortal(username, password))
    case Failure(e) => SessionResult(None, 0, Some(e))
    case Success(resp) =>
      var ret := resp.ret.value;
      if ret.messageVOs.Some? then SessionResult(None, 0, Some(MessageError(ret.messageVOs.value[0])))
      else
        var us := ret.userSessionVO.value;
        SessionResult(Some(TrimSession(us)), Widen(us.studentIDs[0]), None)
  }

  /** The request for one student's data: the session, that student's id
      alone, and the query include list `[1]`. */
  function StudentDataRequest(session: UserSessionVO, studentId: Int64): GetStudentData
  {
    GetStudentData(Some(session), [studentId], Some(QueryIncludeListVO([1])))
  }

  /** A data-call outcome the helper can handle: it panics on an error and
      indexes the first record. */
  predicate DataUsable(res: Result<GetStudentDataResponse, Error>) {
    res.Success? && res.value.ret.Some? && |res.value.ret.value.studentDataVOs| > 0
  }

  /** `GetStudent`: logs in, then fetches the logged-in student's data. A
      log-in error or a server message ends it with that error; otherwise the
      result is the first record the data call returns for the trimmed
      session, the session's first student id and include list `[1]`. */
  function GetStudent(username: string, password: string, login: LoginCall, data: DataCall): (r: Result<StudentDataVO, Error>)
    requires LoginUsable(login(LoginToPublicPortal(username, password)))
    requires var res := login(LoginToPublicPortal(username, password));
      res.Success? && res.value.ret.value.messageVOs.None? ==>
        var us := res.value.ret.value.userSessionVO.value;
        DataUsable(data(StudentDataRequest(TrimSession(us), Widen(us.studentIDs[0]))))
    ensures var res := login(LoginToPublicPortal(username, password));
      && (res.Failure? ==> r == Failure(res.error))
      && (res.Success? && res.value.ret.value.messageVOs.Some? ==>
            r == Failure(MessageError(res.value.ret.value.messageVOs.value[0])))
      && (res.Success? && res.value.ret.value.messageVOs.None? ==>
            var us := res.value.ret.value.userSessionVO.value;
            r == Success(data(StudentDataRequest(TrimSession(us), Widen(us.studentIDs[0])))
                           .value.ret.value.studentDataVOs[0]))
  {
    var s := CreateUserSessionAndStudent(username, password, login);
    if s.err.Some? then Failure(s.err.value)
    else
      var student := data(StudentDataRequest(s.session.value, s.studentId));
      Success(student.value.ret.value.studentDataVOs[0])
  }

  /** End to end: when the log-in returns a session and no messages, the
      data call receives exactly the trimmed session, the session's first
      student id alone and include list `[1]`, whatever else the log-in
      response carries. */
  lemma GetStudentAfterLogin(username: string, password: string, login: LoginCall, data: DataCall,
                             ret: ResultsVO, us: UserSessionVO)
    requires login(LoginToPublicPortal(username, password)) == Success(LoginToPublicPortalResponse(Some(ret)))
    requires ret.messageVOs.None? && ret.userSessionVO == Some(us)
    requires us.serverInfo.Some? && |us.studentIDs| > 0
    requires DataUsable(data(StudentDataRequest(TrimSession(us), us.studentIDs[0] as int)))
    ensures GetStudent(username, password, login, data)
            == Success(data(GetStudentData(Some(TrimSession(us)), [us.studentIDs[0] as int],
                                           Some(QueryIncludeListVO([1])))).value.ret.value.studentDataVOs[0])
  {
  }
}

=== FILE: text.dfy ===
/** The string operations of Go's `strings` package that the client relies
    on, over `string` = `seq<char>`. */
module Text {

  import opened Base

  /** `p` is a prefix of `s`. */
  predicate IsPrefix(p: string, s: string) {
    |p| <= |s| && s[..|p|] == p
  }

  /** `strings.Contains(s, sub)`: `sub` occurs somewhere in `s` (the empty
      string occurs everywhere). */
  predicate Contains(s: string, sub: string)
    decreases |s|
  {
    IsPrefix(sub, s) || (|s| > 0 && Contains(s[1..], sub))
  }

  /** `sub` sits in `s` starting at index `i`. */
  predicate OccursAt(s: string, sub: string, i: int) {
    0 <= i <= |s| - |sub| && s[i..i + |sub|] == sub
  }

  /** `Contains` agrees with the positional definition of a substring. */
  lemma ContainsAt(s: string, sub: string)
    ensures Contains(s, sub) <==> exists i :: OccursAt(s, sub, i)
  {
    if Contains(s, sub) {
      var i := ContainsWitness(s, sub);
    }
    forall i | OccursAt(s, sub, i)
      ensures Contains(s, sub)
    {
      OccursContains(s, sub, i);
    }
  }

  /** A position where a contained `sub` occurs. */
  lemma {:induction false} ContainsWitness(s: string, sub: string) returns (i: int)
    requires Contains(s, sub)
    ensures OccursAt(s, sub, i)
    decreases |s|
  {
    if IsPrefix(sub, s) {
      i := 0;
    } else {
      var j := ContainsWitness(s[1..], sub);
      assert s[1..][j..j + |sub|] == s[j + 1..j + 1 + |sub|];
      i := j + 1;
    }
  }

  /** An occurrence at any position makes `Contains` true. */
  lemma {:induction false} OccursContains(s: string, sub: string, i: int)
    requires OccursAt(s, sub, i)
    ensures Contains(s, sub)
    decreases i
  {
    if i > 0 {
      assert s[1..][i - 1..i - 1 + |sub|] == s[i..i + |sub|];
      OccursContains(s[1..], sub, i - 1);
    } else {
      assert s[..|sub|] == s[i..i + |sub|];
    }
  }

  /** A substring of the middle part is a substring of the whole. */
  lemma ContainsWithin(a: string, s: string, b: string, sub: string)
    requires Contains(s, sub)
    ensures Contains(a + s + b, sub)
  {
    var i := ContainsWitness(s, sub);
    assert (a + s + b)[|a| + i..|a| + i + |sub|] == s[i..i + |sub|];
    OccursContains(a + s + b, sub, |a| + i);
  }

  /** Joins `parts` with one `sep` between neighbours; the inverse of
      `SplitOn`. */
  function Join(parts: seq<string>, sep: char): string
  {
    if |parts| == 0 then ""
    else if |parts| == 1 then parts[0]
    else parts[0] + [sep] + Join(parts[1..], sep)
  }

  /** Joining two or three pieces puts one separator between each pair. */
  lemma JoinFew(a: string, b: string, c: string, sep: char)
    ensures Join([a, b], sep) == a + [sep] + b
    ensures Join([a, b, c], sep) == a + [sep] + b + [sep] + c
  {
    assert [a, b][1..] == [b];
    assert [b, c][1..] == [c];
    assert Join([b, c], sep) == b + [sep] + c;
    assert [a, b, c][1..] == [b, c];
    assert Join([a, b, c], sep) == a + [sep] + (b + [sep] + c);
  }

  /** `strings.Split(s, string(sep))`: the pieces of `s` between occurrences of
      `sep`. There is always at least one piece; none holds `sep`; joining
      them back with `sep` gives `s` again. */
  function SplitOn(s: string, sep: char): (parts: seq<string>)
    ensures |parts| >= 1
    ensures forall i :: 0 <= i < |parts| ==> sep !in parts[i]
    ensures Join(parts, sep) == s
    decreases |s|
  {
    if |s| == 0 then [""]
    else
      var rest := SplitOn(s[1..], sep);
      if s[0] == sep then
        [""] + rest
      else
        assert Join(rest, sep) == rest[0] + (Join(rest, sep)[|rest[0]|..]);
        [[s[0]] + rest[0]] + rest[1..]
  }

  /** A string that holds the separator splits into at least two pieces. */
  lemma SplitSingle(s: string, sep: char)
    ensures |SplitOn(s, sep)| == 1 ==> sep !in s
  {
    var parts := SplitOn(s, sep);
    if |parts| == 1 {
      assert Join(parts, sep) == parts[0];
    }
  }

  /** Splitting a joined list of separator-free pieces gives the pieces back. */
  lemma {:induction false} SplitJoin(parts: seq<string>, sep: char)
    requires |parts| >= 1
    requires forall i :: 0 <= i < |parts| ==> sep !in parts[i]
    ensures SplitOn(Join(parts, sep), sep) == parts
    decreases |parts|
  {
    if |parts| == 1 {
      SplitNoSep(parts[0], sep);
    } else {
      SplitJoin(parts[1..], sep);
      SplitPrefix(parts[0], Join(parts[1..], sep), sep);
    }
  }

  /** A string without the separator is a single piece. */
  lemma {:induction false} SplitNoSep(s: string, sep: char)
    requires sep !in s
    ensures SplitOn(s, sep) == [s]
    decreases |s|
  {
    if |s| > 0 {
      SplitNoSep(s[1..], sep);
      assert [s[0]] + s[1..] == s;
    }
  }

  /** A separator-free prefix followed by the separator is the first piece. */
  lemma {:induction false} SplitPrefix(a: string, b: string, sep: char)
    requires sep !in a
    ensures SplitOn(a + [sep] + b, sep) == [a] + SplitOn(b, sep)
    decreases |a|
  {
    if |a| == 0 {
      assert a + [sep] + b == [sep] + b;
      assert ([sep] + b)[1..] == b;
    } else {
      SplitPrefix(a[1..], b, sep);
      assert (a + [sep] + b)[1..] == a[1..] + [sep] + b;
      assert [a[0]] + a[1..] == a;
    }
  }

  /** The text before the first `c` in `s` and the text after it, or `None`
      when `s` holds no `c`. */
  function UntilChar(s: string, c: char): (r: Option<(string, string)>)
    ensures r.None? <==> c !in s
    ensures r.Some? ==> c !in r.value.0 && s == r.value.0 + [c] + r.value.1
    decreases |s|
  {
    if |s| == 0 then None
    else if s[0] == c then Some(("", s[1..]))
    else
      match UntilChar(s[1..], c)
      case None => None
      case Some((a, b)) => Some(([s[0]] + a, b))
  }

  /** `UntilChar` finds the separator exactly where it was put. */
  lemma {:induction false} UntilCharConcat(a: string, b: string, c: char)
    requires c !in a
    ensures UntilChar(a + [c] + b, c) == Some((a, b))
    decreases |a|
  {
    if |a| > 0 {
      UntilCharConcat(a[1..], b, c);
      assert (a + [c] + b)[1..] == a[1..] + [c] + b;
      assert [a[0]] + a[1..] == a;
    } else {
      assert (a + [c] + b)[1..] == b;
    }
  }
}

=== FILE: transport.dfy ===
/** One remote call of the SOAP client (`SOAPClient.Call`) as a pure function
    of the outcomes of its steps: encoding the envelope, the unauthenticated
    probe that fetches the Digest challenge, the authenticated request, reading
    the reply and decoding it. */
module Transport {

  import opened Base
  import opened Errors
  import opened Envelope
  import opened Digest

  /** The credentials handed to the client at construction. */
  datatype DigestAuth = DigestAuth(login: string, password: string)

  /** The client: endpoint, whether certificate checks are skipped, and the
      credentials. */
  datatype SoapClient = SoapClient(url: string, tls: bool, auth: DigestAuth)

  /** An HTTP request handed to the HTTP client. A `None` body is Go's `nil`
      body. `closeAfter` is `req.Close`; `skipVerify` is the TLS setting of
      the connection it goes out on. */
  datatype Request = Request(
    verb: string, url: string, headers: map<string, string>, body: Option<string>,
    closeAfter: bool, skipVerify: bool)

  /** The bytes of the authenticated reply: empty, or something the XML
      decoder is run on. Decoding either fails outside any Body element (not
      XML, wrong root element) or yields, for each Body element of the
      envelope in document order, the tokens after its start tag. */
  datatype RawBody<P> = EmptyBody | Payload(envelope: Result<seq<seq<Tok<P>>>, Error>)

  /** What each step outside the model's view produced. */
  datatype Steps<P> = Steps(
    /** The encoder's output for the envelope wrapping the request, or its
        error. */
    encoded: Result<string, Error>,
    flushErr: Option<Error>,
    /** `http.NewRequest` rejecting the client's URL. */
    urlErr: Option<Error>,
    /** The probe's response headers, or the HTTP client's error. */
    probe: Result<Header, Error>,
    /** The HTTP client's error on the authenticated request. */
    sendErr: Option<Error>,
    /** Reading the reply body. */
    read: Result<RawBody<P>, Error>)

  /** The error or decoded response `Call` returns, and the requests it sent
      in order. */
  datatype CallResult<P> = CallResult(outcome: Result<P, Error>, sent: seq<Request>)

  const ProbeContentType := "application/json"
  const SoapContentType := "text/xml; charset=\"utf-8\""
  const UserAgent := "gowsdl/0.1"

  /** The unauthenticated probe: a body-less POST to the endpoint. */
  function ProbeRequest(c: SoapClient): Request
  {
    Request("POST", c.url, map["Content-Type" := ProbeContentType], None, false, c.tls)
  }

  /** The map handed to `getDigestAuth`: the challenge fields, then uri "",
      method POST and the client's credentials, which override anything of the
      same name. */
  function DigestMap(challenge: map<string, string>, auth: DigestAuth): (d: map<string, string>)
    ensures d.Keys == challenge.Keys + {"uri", "method", "username", "password"}
    ensures d["uri"] == "" && d["method"] == "POST"
    ensures d["username"] == auth.login && d["password"] == auth.password
    ensures forall k :: k in challenge && k !in {"uri", "method", "username", "password"} ==> d[k] == challenge[k]
  {
    challenge["uri" := ""]["method" := "POST"]["username" := auth.login]["password" := auth.password]
  }

  /** Headers of the authenticated request. `SOAPAction` is present exactly
      when the action is non-empty. */
  function SoapHeaders(soapAction: string, authorization: string): (h: map<string, string>)
    ensures "SOAPAction" in h <==> soapAction != ""
    ensures soapAction != "" ==> h["SOAPAction"] == soapAction
    ensures h.Keys - {"SOAPAction"} == {"Content-Type", "Authorization", "User-Agent"}
    ensures h["Content-Type"] == SoapContentType && h["User-Agent"] == UserAgent
    ensures h["Authorization"] == authorization
  {
    var base := map["Content-Type" := SoapContentType];
    var withAction := if soapAction != "" then base["SOAPAction" := soapAction] else base;
    withAction["Authorization" := authorization]["User-Agent" := UserAgent]
  }

  /** The authenticated request carrying the encoded envelope. */
  function SoapRequest(c: SoapClient, soapAction: string, envelope: string, authorization: string): Request
  {
    Request("POST", c.url, SoapHeaders(soapAction, authorization), Some(envelope), true, c.tls)
  }

  /** Runs the Body decoder on each Body element in turn, on the same slots,
      stopping at the first error. The slots stay exclusive, and a slot once
      set keeps one of the two set. */
  function DecodeBodies<P>(b: Body<P>, bodies: seq<seq<Tok<P>>>): (r: Result<Body<P>, Error>)
    ensures r.Success? && Exclusive(b) ==> Exclusive(r.value)
    ensures r.Success? && (b.fault.Some? || b.content.Some?) ==> r.value.fault.Some? || r.value.content.Some?
    decreases |bodies|
  {
    if |bodies| == 0 then Success(b)
    else
      match DecodeBody(b, bodies[0])
      case Failure(e) => Failure(e)
      case Success(next) => DecodeBodies(next, bodies[1..])
  }

  /** `xml.Unmarshal` into an envelope whose Content slot is the caller's
      response, followed by the Fault check: a decoded Fault is the error,
      otherwise the response as decoded. An envelope without a Body leaves
      the response as it was. */
  function DecodeReply<P>(response: P, envelope: Result<seq<seq<Tok<P>>>, Error>): (r: Result<P, Error>)
    ensures envelope == Success([]) ==> r == Success(response)
    ensures envelope.Failure? ==> r == Failure(envelope.error)
    // The first Body element's failure, stated on its own for callers; the
    // clause after it covers every Body element.
    ensures envelope.Success? && |envelope.value| > 0 && DecodeBody(Body(None, Some(response)), envelope.value[0]).Failure? ==>
      r == Failure(DecodeBody(Body(None, Some(response)), envelope.value[0]).error)
    ensures envelope.Success? && DecodeBodies(Body(None, Some(response)), envelope.value).Failure? ==>
      r == Failure(DecodeBodies(Body(None, Some(response)), envelope.value).error)
    ensures envelope.Success? && DecodeBodies(Body(None, Some(response)), envelope.value).Success? ==>
      var b := DecodeBodies(Body(None, Some(response)), envelope.value).value;
      && (b.fault.Some? ==> r == Failure(SoapFault(b.fault.value)))
      && (b.fault.None? ==> b.content.Some? && r == Success(b.content.value))
  {
    match envelope
    case Failure(e) => Failure(e)
    case Success(bodies) =>
      match DecodeBodies(Body(None, Some(response)), bodies)
      case Failure(e) => Failure(e)
      case Success(b) =>
        if b.fault.Some? then Failure(SoapFault(b.fault.value)) else Success(b.content.value)
  }

  /** Both exchanges went through: the request was encoded, the URL accepted,
      the probe answered and the authenticated request answered. */
  predicate Delivered<P>(steps: Steps<P>) {
    && steps.encoded.Success? && steps.flushErr.None? && steps.urlErr.None?
    && steps.probe.Success? && steps.sendErr.None?
  }

  /** `SOAPClient.Call`, with `cnonce` the client nonce and `md5` the hash.
      Encoding failures return before any request exists; the probe is a
      body-less POST; the authenticated request carries the envelope, the
      Digest `Authorization` computed from the probe's challenge with method
      POST and uri "", and `SOAPAction` only for a non-empty action. Success
      needs both exchanges, and an empty reply is success with the response
      untouched. */
  function Call<P>(c: SoapClient, soapAction: string, response: P, steps: Steps<P>,
                   cnonce: string, md5: string -> string): (r: CallResult<P>)
    requires steps.probe.Success? ==> Parsable(steps.probe.value)
    ensures steps.encoded.Failure? ==> r == CallResult(Failure(steps.encoded.error), [])
    ensures steps.encoded.Success? && steps.flushErr.Some? ==> r == CallResult(Failure(steps.flushErr.value), [])
    ensures steps.encoded.Success? && steps.flushErr.None? && steps.urlErr.Some? ==>
      r == CallResult(Failure(steps.urlErr.value), [])
    ensures steps.encoded.Success? && steps.flushErr.None? && steps.urlErr.None? && steps.probe.Failure? ==>
      r == CallResult(Failure(steps.probe.error), [ProbeRequest(c)])
    ensures |r.sent| <= 2
    ensures |r.sent| >= 1 ==>
      r.sent[0] == Request("POST", c.url, map["Content-Type" := ProbeContentType], None, false, c.tls)
    ensures |r.sent| == 2 ==>
      && steps.encoded.Success? && steps.probe.Success?
      && r.sent[1] == Request("POST", c.url,
           SoapHeaders(soapAction, GetDigestAuth(DigestMap(DigestParts(steps.probe.value), c.auth), cnonce, md5)),
           Some(steps.encoded.value), true, c.tls)
    ensures r.outcome.Success? ==> |r.sent| == 2 && steps.sendErr.None? && steps.read.Success?
    ensures Delivered(steps) <==> |r.sent| == 2 && steps.sendErr.None?
    ensures steps.encoded.Success? && steps.flushErr.None? && steps.urlErr.None? && steps.probe.Success? && steps.sendErr.Some? ==>
      |r.sent| == 2 && r.outcome == Failure(steps.sendErr.value)
    ensures Delivered(steps) && steps.read.Failure? ==> r.outcome == Failure(steps.read.error)
    ensures Delivered(steps) && steps.read == Success(EmptyBody) ==> r.outcome == Success(response)
    ensures Delivered(steps) && steps.read.Success? && steps.read.value.Payload? ==>
      r.outcome == DecodeReply(response, steps.read.value.envelope)
  {
    if steps.encoded.Failure? then CallResult(Failure(steps.encoded.error), [])
    else if steps.flushErr.Some? then CallResult(Failure(steps.flushErr.value), [])
    else if steps.urlErr.Some? then CallResult(Failure(steps.urlErr.value), [])
    else
      var probe := ProbeRequest(c);
      match steps.probe
      case Failure(e) => CallResult(Failure(e), [probe])
      case Success(h) =>
        var authorization := GetDigestAuth(DigestMap(DigestParts(h), c.auth), cnonce, md5);
        var sent := [probe, SoapRequest(c, soapAction, steps.encoded.value, authorization)];
        if steps.sendErr.Some? then CallResult(Failure(steps.sendErr.value), sent)
        else
          match steps.read
          case Failure(e) => CallResult(Failure(e), sent)
          case Success(EmptyBody) => CallResult(Success(response), sent)
          case Success(Payload(envelope)) => CallResult(DecodeReply(response, envelope), sent)
  }

  /** A reply whose one Body holds a SOAP Fault and nothing else makes the
      call fail with that Fault, whose error text is its `faultstring`. */
  lemma CallReturnsFault<P>(c: SoapClient, soapAction: string, response: P, steps: Steps<P>,
                            cnonce: string, md5: string -> string, toks: seq<Tok<P>>, f: Fault)
    requires Delivered(steps) && Parsable(steps.probe.value)
    requires steps.read == Success(Payload(Success([toks])))
    requires var sig := Significant(toks);
      |sig| >= 2 && sig[0].Start? && sig[0].space == SoapEnvNs && sig[0].local == "Fault"
      && sig[0].asFault == Success(f) && sig[1] == End
    ensures Call(c, soapAction, response, steps, cnonce, md5).outcome == Failure(SoapFault(f))
    ensures Message(Call(c, soapAction, response, steps, cnonce, md5).outcome.error) == f.faultString
  {
    var b := Body(None, Some(response));
    FaultBranch(b, toks, f);
    assert DecodeBodies(b, [toks]) == DecodeBodies(Body(Some(f), None), [toks][1..]);
  }

  /** A reply whose one Body fails to decode makes the call fail with the
      Body decoder's error, unchanged. */
  lemma CallReturnsBodyError<P>(c: SoapClient, soapAction: string, response: P, steps: Steps<P>,
                                cnonce: string, md5: string -> string, toks: seq<Tok<P>>, e: Error)
    requires Delivered(steps) && Parsable(steps.probe.value)
    requires steps.read == Success(Payload(Success([toks])))
    requires DecodeBody(Body(None, Some(response)), toks) == Failure(e)
    ensures Call(c, soapAction, response, steps, cnonce, md5).outcome == Failure(e)
  {
    assert DecodeBodies(Body(None, Some(response)), [toks]) == Failure(e);
  }

  /** A reply whose one Body holds one payload element makes the call return
      the decoded payload. */
  lemma CallReturnsPayload<P>(c: SoapClient, soapAction: string, response: P, steps: Steps<P>,
                              cnonce: string, md5: string -> string, toks: seq<Tok<P>>, v: P)
    requires Delivered(steps) && Parsable(steps.probe.value)
    requires steps.read == Success(Payload(Success([toks])))
    requires var sig := Significant(toks);
      |sig| >= 2 && sig[0].Start? && !(sig[0].space == SoapEnvNs && sig[0].local == "Fault")
      && sig[0].asContent == Success(v) && sig[1] == End
    ensures Call(c, soapAction, response, steps, cnonce, md5).outcome == Success(v)
  {
    var b := Body(None, Some(response));
    PayloadBranch(b, toks, v);
    assert DecodeBodies(b, [toks]) == DecodeBodies(Body(None, Some(v)), [toks][1..]);
  }

  /** A Fault in a later Body element wins over a payload decoded from an
      earlier one: the Fault branch clears the Content slot, and the call
      reports the Fault. */
  lemma PayloadThenFaultBody<P>(response: P, first: seq<Tok<P>>, second: seq<Tok<P>>, v: P, f: Fault)
    requires var sig := Significant(first);
      |sig| >= 2 && sig[0].Start? && !(sig[0].space == SoapEnvNs && sig[0].local == "Fault")
      && sig[0].asContent == Success(v) && sig[1] == End
    requires var sig := Significant(second);
      |sig| >= 2 && sig[0].Start? && sig[0].space == SoapEnvNs && sig[0].local == "Fault"
      && sig[0].asFault == Success(f) && sig[1] == End
    ensures DecodeReply(response, Success([first, second])) == Failure(SoapFault(f))
  {
    var b := Body(None, Some(response));
    PayloadBranch(b, first, v);
    FaultBranch(Body(None, Some(v)), second, f);
    assert DecodeBodies(b, [first, second]) == DecodeBodies(Body(None, Some(v)), [second]);
    assert DecodeBodies(Body(None, Some(v)), [second]) == DecodeBodies(Body(Some(f), None), []);
  }

  /** A second payload Body element decodes into the same response after the
      first, and the call returns what the second one wrote. */
  lemma PayloadThenPayloadBody<P>(response: P, first: seq<Tok<P>>, second: seq<Tok<P>>, v1: P, v2: P)
    requires var sig := Significant(first);
      |sig| >= 2 && sig[0].Start? && !(sig[0].space == SoapEnvNs && sig[0].local == "Fault")
      && sig[0].asContent == Success(v1) && sig[1] == End
    requires var sig := Significant(second);
      |sig| >= 2 && sig[0].Start? && !(sig[0].space == SoapEnvNs && sig[0].local == "Fault")
      && sig[0].asContent == Success(v2) && sig[1] == End
    ensures DecodeReply(response, Success([first, second])) == Success(v2)
  {
    var b := Body(None, Some(response));
    PayloadBranch(b, first, v1);
    PayloadBranch(Body(None, Some(v1)), second, v2);
    assert DecodeBodies(b, [first, second]) == DecodeBodies(Body(None, Some(v1)), [second]);
    assert DecodeBodies(Body(None, Some(v1)), [second]) == DecodeBodies(Body(None, Some(v2)), []);
  }

  /** A Fault followed by a second element in the same Body is not reported
      as the Fault: the call fails with the multiple-elements error. */
  lemma FaultThenElementRejected<P>(response: P, toks: seq<Tok<P>>, f: Fault)
    requires var sig := Significant(toks);
      |sig| >= 2 && sig[0].Start? && sig[0].space == SoapEnvNs && sig[0].local == "Fault"
      && sig[0].asFault == Success(f) && sig[1].Start?
    ensures DecodeReply(response, Success([toks])) == Failure(Unmarshal(MultipleElements))
  {
    SecondElementRejected(Body(None, Some(response)), toks);
  }

  /** A second Body element after a Body holding a Fault finds the Content
      slot cleared and fails with the missing-content error. */
  lemma SecondBodyAfterFault<P>(response: P, first: seq<Tok<P>>, second: seq<Tok<P>>, f: Fault)
    requires var sig := Significant(first);
      |sig| >= 2 && sig[0].Start? && sig[0].space == SoapEnvNs && sig[0].local == "Fault"
      && sig[0].asFault == Success(f) && sig[1] == End
    ensures DecodeReply(response, Success([first, second])) == Failure(Unmarshal(ContentMissing))
  {
    var b := Body(None, Some(response));
    FaultBranch(b, first, f);
    assert DecodeBodies(b, [first, second]) == DecodeBodies(Body(Some(f), None), [second]);
    assert DecodeBodies(Body(Some(f), None), [second]) == Failure(Unmarshal(ContentMissing));
  }

  /** The `Authorization` header of the authenticated request names the
      client's login, carries the challenge's realm, nonce and qop (empty when
      missing), uri "", nonce count 1, and the response digest over method
      POST and uri "". */
  lemma CallAuthorization<P>(c: SoapClient, soapAction: string, response: P, steps: Steps<P>,
                             cnonce: string, md5: string -> string)
    requires Delivered(steps) && Parsable(steps.probe.value)
    requires HexDigest(md5) && '"' !in cnonce && '"' !in c.auth.login
    ensures var r := Call(c, soapAction, response, steps, cnonce, md5);
      var ch := DigestParts(steps.probe.value);
      var realm, nonce, qop := Lookup(ch, "realm"), Lookup(ch, "nonce"), Lookup(ch, "qop");
      && |r.sent| == 2 && "Authorization" in r.sent[1].headers
      && ParseAuthorization(r.sent[1].headers["Authorization"]) == Some(
           [ ("username", c.auth.login), ("realm", realm), ("nonce", nonce), ("uri", ""),
             ("cnonce", cnonce), ("nc", "1"), ("qop", qop),
             ("response",
              md5(md5(c.auth.login + ":" + realm + ":" + c.auth.password)
                  + ":" + nonce + ":1:" + cnonce + ":" + qop + ":" + md5("POST" + ":" + ""))) ])
  {
    var ch := DigestParts(steps.probe.value);
    var d := DigestMap(ch, c.auth);
    assert Lookup(d, "realm") == Lookup(ch, "realm");
    assert Lookup(d, "nonce") == Lookup(ch, "nonce");
    assert Lookup(d, "qop") == Lookup(ch, "qop");
    assert Quotable(d, cnonce, md5);
  }

  /** A probe answered without any challenge still leads to an authenticated
      request, whose `Authorization` header is built from an empty realm,
      nonce and qop. */
  lemma CallWithoutChallenge<P>(c: SoapClient, soapAction: string, response: P, steps: Steps<P>,
                                cnonce: string, md5: string -> string)
    requires Delivered(steps) && WwwAuthenticate !in steps.probe.value
    requires HexDigest(md5) && '"' !in cnonce && '"' !in c.auth.login
    ensures Parsable(steps.probe.value)
    ensures var r := Call(c, soapAction, response, steps, cnonce, md5);
      && |r.sent| == 2 && "Authorization" in r.sent[1].headers
      && ParseAuthorization(r.sent[1].headers["Authorization"]) == Some(
           [ ("username", c.auth.login), ("realm", ""), ("nonce", ""), ("uri", ""),
             ("cnonce", cnonce), ("nc", "1"), ("qop", ""),
             ("response",
              md5(md5(c.auth.login + ":" + "" + ":" + c.auth.password)
                  + ":" + "" + ":1:" + cnonce + ":" + "" + ":" + md5("POST" + ":" + ""))) ])
  {
    assert ChallengePieces(steps.probe.value) == [];
    CallAuthorization(c, soapAction, response, steps, cnonce, md5);
  }
}
